=== FILE: README.md ===
# OAuth2 authorization state machine of a WordPress REST API client

This project models the core of a browser-side client that obtains an OAuth2 access token for one
user of a WordPress REST API server and then signs its requests with it. That core is the
`authorize` state machine. Given the live credentials, the durable store (two keys:
`requestTokenCredentials` for the pending snapshot saved before a redirect, and `tokenCredentials`
for the finalized one) and the current location, it decides the next step of the dance. The step
is one of these:

- ask the broker for client credentials;
- accept a held token;
- redirect the browser to the authorization endpoint;
- adopt an implicit-grant token from the fragment;
- exchange an authorization code;
- report the provider's error;
- restart after a cancelled attempt.

The client implements the client side of the Authorization Code and Implicit grants (sections 4.1
and 4.2 of RFC 6749) and HTTP Basic client authentication (section 2.3.1 of RFC 6749).

Around the state machine are the pure builders it uses:

- grant-type derivation in the constructor;
- the redirect URL;
- the token-exchange request;
- the bearer header;
- the generic request options;
- the broker and token reply handlers;
- the save, remove, has and restore helpers for the finalized credentials.

Layout (one module per component):

- `js.dfy`, module `Js`: JavaScript values the code relies on. It covers possibly undefined values, truthiness, the text
  `${x}` prints, plain string-property objects, and `indexOf`.
- `errors.dfy`, module `Errors`: what can be thrown or rejected.
- `creds.dfy`, module `Creds`: the credentials record, grant derivation, and the JSON round trip through the store.
- `store.dfy`, module `CredentialStore`: the store and the finalized-credential helpers.
- `instance.dfy`, module `Instance`: configuration and the constructor.
- `requests.dfy`, module `Requests`: headers, URLs, requests and response parsing.
- `exchange.dfy`, module `TokenExchange`: the broker and code-exchange requests, and adoption of their replies.
- `authorize.dfy`, module `Authorization`: `authorize` as a pure, well-founded recursive step
  function, plus one lemma per branch.
- `flow.dfy`, module `Flow`: `authorize` composed with the network calls it starts. The
  replies are inputs, and every request sent is recorded.

Browser effects become data:

- The store is a `map<string, Credentials>`.
- The location is its `href` plus two parameter sets. The first is what `qs.parse` reads from `href.split('?')[1]`, which runs from the first `?` to the next one and includes any fragment (`cb?code=X#y` gives the code `X#y`). The second is what it reads from the fragment after `#`.
- A redirect is the outcome `Redirect(url)`, not a thrown string.
- A network call the state machine needs is the outcome `NeedBroker` or `Exchange(code)`.

The model follows the code as written, including these points where its behaviour is easy to misread:

- The token-exchange body is encoded (line 70) before `client_id` is deleted (line 76). So
  `client_id` is always sent in the body, even with the Basic header: the `delete` has no effect
  on what is sent.
- The Basic header is keyed on the `secret` key being present (`'secret' in client`), not on a
  truthy secret.
- `scope` comes from `config.scope` (`this.scope`), not from the credentials record.
- On the return leg an `access_token` is adopted from the query as well when the live grant is
  `code`. The fragment replaces the query parameters wholesale only for the `token` grant.
- Deriving the grant when no `type` is configured reads `client.secret`. It throws a TypeError when
  there is no client, in the constructor and in the cancellation reset alike.
- The guards `href.indexOf('?')` and `href.indexOf('#')` are used as booleans. So they hold
  unless that character is the first of the URL, whether or not it occurs at all.
- Under the implicit grant the fragment is removed from the address bar (lines 114-119) before the
  broker detour (line 124). So the re-run after the broker no longer sees it; see "## Findings".

## Model

| member | source | states |
|---|---|---|
| `Js.IndexOf` | src/index.js:213 | the result is the first index at which the substring occurs, or -1 exactly when it occurs nowhere |
| `Js.SplitHead` | src/index.js:116 | `split(sep)[0]` is the longest prefix free of the separator: all of the text when the separator does not occur, otherwise the text up to its first occurrence |
| `Js.IndexOfZeroIffPrefix` | src/index.js:213 | `url.indexOf('http') !== 0` is exactly "url does not start with http" |
| `Creds.DeriveGrant` | src/index.js:10-12 | a configured `type` is kept; otherwise it becomes `code` exactly when `client.secret` is truthy and `token` otherwise; it throws exactly when there is neither a type nor a client |
| `Creds.Serialized` | src/index.js:137 | the JSON round trip keeps grant, token and client id, and keeps the client unless its `secret` key holds undefined; that key is dropped, so afterwards no secret holds undefined |
| `Creds.SerializedRoundTrip` | src/index.js:137 | storing credentials as JSON and reading them back returns them unchanged exactly when no `secret` key holds undefined; the round trip is idempotent and keeps grant, token, client id and secret truthiness |
| `CredentialStore.Load` | src/index.js:104 | reading a key gives its stored credentials exactly when the key is present, and null otherwise |
| `CredentialStore.SaveCredentials` | src/index.js:175-177 | the finalized key afterwards holds the JSON round trip of the live credentials; every other key is unchanged |
| `CredentialStore.RemoveCredentials` | src/index.js:179-182 | afterwards the token is deleted and `hasCredentials` is false, the finalized key is gone, grant and client are kept, and every other key is unchanged |
| `CredentialStore.HasCredentials` | src/index.js:184-190 | credentials pass only when they hold a token object whose value is a non-empty string and a client whose id is a non-empty string; removing the token makes them fail it (`RemoveCredentials`) and the store round trip keeps it (`SaveThenRestore`) |
| `CredentialStore.RestoreCredentials` | src/index.js:192-198 | with a finalized snapshot the live credentials become that snapshot; without one they are kept |
| `CredentialStore.SaveThenRestore` | src/index.js:175-198 | restoring after saving yields the saved credentials whatever the live ones are by then, exactly when nothing was undefined, and an authorized session stays authorized |
| `CredentialStore.RemoveThenRestore` | src/index.js:179-198 | restoring after removal finds nothing and leaves credentials that fail `hasCredentials` |
| `Instance.ApiRoot` | src/index.js:5 | a truthy `rest_url` is the root as it is; otherwise the root is the site URL (printed as text) followed by `wp-json` |
| `Instance.StripTrailingSlash` | src/index.js:6 | one trailing slash is removed if present, otherwise the URL is unchanged |
| `Instance.Construct` | src/index.js:4-14 | construction succeeds exactly when a type is configured or a client is present; the API root is `rest_url` (if truthy) or `url + 'wp-json'` with one trailing slash removed; scope is the configured value when truthy and absent otherwise; the derived type is `code` exactly when the secret is truthy |
| `Instance.ResetMatchesConstruction` | src/index.js:168-171 | the cancellation reset re-derives exactly the credentials the constructor started with |
| `Requests.AuthorizationHeader` | src/index.js:93-99 | no header exactly when no token object is held, otherwise a `Bearer` header with the token's public value (`Bearer undefined` when the token object has none) |
| `Requests.BuildRequest` | src/index.js:212-245 | relative URLs get the API root prefixed; GET moves the data into the query and sends no body; HEAD sends neither; other methods send the data (or the empty form) as body; the form content type is set exactly for non-GET/HEAD requests with data; the bearer header is merged exactly when a token is held |
| `Requests.RedirectUrl` | src/index.js:38-55 | a falsy callback URL is a configuration error; otherwise the authorization endpoint's query holds `redirect_uri`, `client_id`, `response_type` (when a type is set), `scope` exactly when truthy, `state` exactly when truthy, and nothing else |
| `Requests.AccessTokenRequest` | src/index.js:57-77 | a POST to the token endpoint whose form holds `grant_type=authorization_code`, the code, `redirect_uri` and `client_id` (kept even with Basic auth) and nothing else; a Basic header over `id:secret` is added exactly when the client has a `secret` key |
| `Requests.ParseResponse` | src/index.js:266-280 | a success returns the body; a failure becomes an error with the body's message, code and data |
| `TokenExchange.ConnectBroker` | src/index.js:16-23 | fails exactly when no broker credentials are configured; otherwise installs the broker's client and sends the generic POST request to `${brokerURL}broker/connect` with the form `server_url`, unsigned by any token the live credentials do not hold |
| `TokenExchange.AdoptBrokerReply` | src/index.js:24-35 | an HTTP failure fails with the error `parseResponse` builds from the body's message, code and data; `status: 'error'` fails with the broker's message and type; otherwise the client becomes the returned token and secret, and nothing else changes |
| `TokenExchange.AdoptAccessToken` | src/index.js:79-90 | a failure status rejects with the body's message; otherwise `access_token` becomes `token.public` and the token object is the result |
| `TokenExchange.BrokerClientUsesBasicAuth` | src/index.js:29-32 | a broker-issued client always has a `secret` key, so an exchange built from it carries a Basic header; the exchange actually sent is built from its JSON snapshot (lines 137, 151, 158), which carries a Basic header exactly when the broker's reply had `client_secret` |
| `Authorization.ReturnArgs` | src/index.js:107-121 | the return parameters are the fragment's under the implicit grant unless the URL starts with `#` (then the query's); without it, the query's unless the URL starts with `?` (then none) |
| `Authorization.FragmentRemoved` | src/index.js:114-119 | after the fragment is removed the address is the old one cut just before its first `#` (a prefix without any `#`), no fragment parameters remain, and the address is unchanged when it had no `#`; so the `#` guard still holds afterwards |
| `Authorization.Authorize` | src/index.js:101-173 | only the pending key is ever written or deleted; the early exits change nothing; a redirect (or a missing callback URL) always follows the commit of the current credentials' snapshot; an exchange, an adopted token or a provider error happens only after a pending snapshot existed and was deleted; the exchanged code is non-empty; the broker step with a client present happens only after the snapshot was consumed; the location is left with its fragment removed exactly when the fragment branch ran, and as it was otherwise |
| `Authorization.MissingClientGoesToBroker` | src/index.js:111-125 | without a client the outcome is the broker step, with credentials and store unchanged, and an implicit-grant return's fragment is already gone by then |
| `Authorization.HeldTokenDecides` | src/index.js:127-134 | a held token with a truthy value succeeds, one without fails with `invalid_stored_token`, and neither changes anything |
| `Authorization.HeldCredentialsSucceed` | src/index.js:184-190 | credentials passing `hasCredentials` authorize at once, changing nothing |
| `Authorization.FirstVisitRedirects` | src/index.js:148-154 | with a live client, no held token and no pending snapshot, the live credentials' snapshot is written; the redirect query never holds `state`, and when a type and a client id are defined it is exactly `response_type`, `client_id`, `redirect_uri` and a truthy `scope`; a missing callback URL fails after the snapshot is written |
| `Authorization.ImplicitTokenAdopted` | src/index.js:136-146 | on return with an access token the snapshot is restored and deleted and the token is adopted as `token.public` |
| `Authorization.CodeIsExchanged` | src/index.js:156-158 | on return with a code the snapshot is restored and deleted and the code goes to the exchange, even if an error came too |
| `Authorization.ProviderErrorRejects` | src/index.js:161-164 | on return with an error and no code the flow rejects with that value after consuming the snapshot |
| `Authorization.CancellationRestarts` | src/index.js:123-172 | on return with neither, the credentials are reset from the configuration and the snapshot is deleted; the re-run then goes to the broker when the configuration has no client, succeeds or fails with `invalid_stored_token` when it holds a token (by its value), and otherwise redirects with a fresh snapshot or fails on a missing callback URL; a missing client to derive the type from fails with the TypeError |
| `Flow.Settle` | src/index.js:57-90 | a code exchange sends exactly the token request built for the restored credentials and that code, and resolves with the reply's `access_token` adopted as `token.public`, or rejects with the reply's message when the reply is not ok; without a client it throws reading `id` and sends nothing; other outcomes pass through unchanged |
| `Flow.BrokerLeg` | src/index.js:16-36 | without broker credentials it throws and sends nothing; otherwise it installs the broker's client and sends one request to `${brokerURL}broker/connect` carrying `server_url`; an accepted reply makes the client `{id: client_token, secret: client_secret}`, keeping grant and token, and a refused one fails with the broker's error, leaving the broker's client installed and the store unchanged |
| `Flow.Run` | src/index.js:101-173 | a call carried through its network requests, re-running at the location the previous pass left, never ends waiting for the broker or an exchange, writes nothing but the pending key, and sends at most one request for a pending snapshot plus one for a missing client (two in all) |
| `Flow.RunKeepingFragment` | src/index.js:101-173 | the corrected run, whose re-run after the broker reads the original return parameters, has the same guarantees |
| `Flow.KeepingFragmentChangesOnlyFragmentReturns` | src/index.js:111-124 | the corrected run agrees with the run as written on every call whose first pass does not read the fragment |
| `Flow.ImplicitReturnLostAfterBroker` | src/index.js:111-172 | an implicit-grant return with a token in the fragment but no live client redirects again after two broker requests, never adopting the token |
| `Flow.ImplicitReturnAdoptedAfterBroker` | src/index.js:111-146 | with the correction the same return adopts the fragment's token after one broker request and consumes the snapshot |
| `Flow.FreshStartRedirects` | src/index.js:4-14 | a freshly constructed client whose configuration has a client, no token and a callback URL, with no pending snapshot, stores a snapshot, redirects and sends no request |
| `Flow.CodeReturnExchangesOnce` | src/index.js:156-158 | a return with a code sends exactly one token request carrying that code, and a successful reply's `access_token` becomes `token.public` |
| `Flow.CodeReturnRefusedReply` | src/index.js:79-90 | a return with a code whose token reply is not ok sends that one token request and rejects with the reply's message, the snapshot staying consumed |
| `Flow.ProviderErrorAfterBroker` | src/index.js:123-124 | a return with an error and no code on a page without a live client, whose first pass does not read the fragment, sends the one broker connect request and then rejects with the provider's error, the snapshot consumed |
| `Flow.ProviderErrorSendsNothing` | src/index.js:161-164 | with a live client and no held token, a return with an error and no code rejects with it and sends no request |
| `Flow.CancellationRedirectsAgain` | src/index.js:166-172 | with a live client and no held token, and a configuration with a client, no token and a truthy callback URL, a cancelled return silently redirects again with a snapshot of the re-derived configuration credentials and sends no request |
| `Flow.BrokerThenRedirect` | src/index.js:123-124 | without a client one broker request is sent, and the issued client is the one the redirect and the snapshot carry |

## Findings

| source | as written | input that shows it | evidently intended | confidence | as-written member | corrected member |
|---|---|---|---|---|---|---|
| src/index.js:111-124 | under the implicit grant the fragment is parsed and then removed from the address bar before the missing client sends the call to the broker, and the re-run after the broker parses the now empty fragment | a broker-provisioned client with `type: 'token'` and no configured client, returning to `https://site/cb#access_token=T` with a pending snapshot: the re-run finds no token, treats the return as a cancellation, asks the broker again and redirects again, so the implicit flow never completes | the token returned in the fragment is adopted after the broker detour | medium, not executed | `Flow.ImplicitReturnLostAfterBroker` (about `Flow.Run`) | `Flow.ImplicitReturnAdoptedAfterBroker` (about `Flow.RunKeepingFragment`) |

`Flow.Run` stays the model of the code as written. `Flow.KeepingFragmentChangesOnlyFragmentReturns` shows
that the corrected run differs from it only on returns that read the fragment. So the other `Flow` lemmas
hold of the corrected run as well whenever their call does not read the fragment.

## Left out

- Browser effects: `window.localStorage`, `window.location` and `history.pushState` become the explicit store and location. The removal of the fragment (lines 114-119) is modelled as the location a step leaves behind (`Authorization.FragmentRemoved`), using the `pushState` address `href.split('#')[0]`. The fallback `location.hash = ''` leaves a trailing `#` instead. Nothing reads that difference: both guards still hold and the fragment is empty either way. The query parameters of the cleaned location are kept as parsed before; a later pass reads them only without the implicit grant, which never happens after the fragment branch ran.
- Asynchrony: `fetch` and Promises are not modelled. Network calls are outcomes, and replies are inputs to `Flow.Run`. The broker gives the same reply to each of its (at most two) connect requests.
- Rejected `fetch` calls: a network or CORS failure makes `fetch` reject before any response exists. A reply here is always a response, so this rejection is not representable.
- Non-JSON bodies: `resp.json()` rejects on a body that is not JSON (lines 79-80, 244). A reply here is always parsed JSON, so this rejection is not representable.
- Non-string JSON members: a parsed body is a map from names to strings, so numbers, booleans, `null`, arrays and nested objects in a reply are not representable.
- Library encoders: `qs.stringify`, `qs.parse`, `decodeURIComponent` and `btoa` are not modelled as code. Queries, forms and Basic credentials stay structured: they are the object or text handed to the encoder. The key order of an encoded string and nested or array values are not modelled.
- JSON: `JSON.stringify`/`JSON.parse` is modelled only by what it loses (a member holding undefined). Store values that are not valid credentials JSON, which would make `JSON.parse` throw, are not modelled.
- `null` and `undefined` are not told apart; both are an absent value.
- `parseResponse`'s non-enumerable `getResponse` getter (lines 269-271), the `fetch` method (lines 247-263), `discover` (lines 300-322) and `console.log` (line 150) are not modelled. They are thin wrappers over browser and HTTP primitives.
- The `get`, `post` and `del` wrappers (lines 200-210) are `Requests.BuildRequest` with a fixed method. The constant `mode: 'cors'` option is not modelled.
- A configured `type` other than `code` or `token` is not modelled.
- Concurrent `authorize` calls racing on the pending key are not modelled.

=== FILE: authorize.dfy ===
/** The authorization state machine, `authorize` (src/index.js:101-173), as a
    pure step function of the session, the live credentials, the durable
    store and the current location. A network call it needs is returned as
    an outcome (`NeedBroker`, `Exchange`) for the caller to perform; the
    redirect it throws is the outcome `Redirect`. */
module Authorization {
  import opened Js
  import opened Errors
  import opened Creds
  import opened CredentialStore
  import opened Instance
  import opened Requests

  /** The current location: its full `href`, the parameters qs.parse reads
      from `href.split('?')[1]`, and those it reads from the fragment after
      `#`. The text split off runs from the first `?` to the next one and
      includes any fragment, so `cb?code=X#y` gives the code `X#y`. */
  datatype Location = Location(href: string, query: Params, fragment: Params)

  datatype Outcome =
      /** No client yet: get client credentials from the broker, then authorize again. */
    | NeedBroker
      /** A usable token is already held: resolves with "Success". */
    | Success
      /** An implicit-grant token was adopted: resolves with the token object. */
    | Authorized(token: BearerToken)
      /** The pending snapshot is committed; the browser must navigate to `url`. */
    | Redirect(url: Url)
      /** The provider returned `code`: exchange it for a token. */
    | Exchange(code: string)
      /** Throws or rejects with `error`. */
    | Fail(error: AuthError)

  /** The outcome together with the live credentials, the store and the
      location it leaves behind. */
  datatype Step = Step(outcome: Outcome, creds: Credentials, store: Store, loc: Location)

  /** The fragment branch of lines 111-119 is taken: a pending snapshot
      exists, the `#` guard holds and the live grant is implicit. */
  predicate ReadsFragment(creds: Credentials, store: Store, loc: Location) {
    PendingKey in store && IndexOf(loc.href, "#") != 0 && creds.grant == Some(Token)
  }

  /** The return-leg parameters (lines 107-121), read only when a pending
      snapshot exists. `indexOf` results are used as booleans, so each
      guard holds unless the character is the first of the URL. An implicit
      grant (the live `type` before the snapshot is restored) replaces the
      query parameters wholesale by the fragment's. */
  function ReturnArgs(creds: Credentials, loc: Location): (r: Params)
    ensures r == loc.fragment || r == loc.query || r == map[]
    ensures creds.grant == Some(Token) && !StartsWith(loc.href, "#") ==> r == loc.fragment
    ensures creds.grant == Some(Token) && StartsWith(loc.href, "#") ==> r == loc.query
    ensures creds.grant != Some(Token) && !StartsWith(loc.href, "?") ==> r == loc.query
    ensures creds.grant != Some(Token) && StartsWith(loc.href, "?") ==> r == map[]
  {
    IndexOfZeroIffPrefix(loc.href, "?");
    IndexOfZeroIffPrefix(loc.href, "#");
    var fromQuery := if IndexOf(loc.href, "?") != 0 then loc.query else map[];
    if IndexOf(loc.href, "#") != 0 && creds.grant == Some(Token) then loc.fragment else fromQuery
  }

  /** The address bar after lines 114-119 took the fragment out:
      `history.pushState` to `href.split('#')[0]`, with no fragment
      parameters left. The query parameters are kept as they were; a later
      pass reads them only without the implicit grant, and every later pass
      with a pending snapshot has that grant (see `Authorize`). */
  function FragmentRemoved(loc: Location): (r: Location)
    ensures r.fragment == map[] && r.query == loc.query
    ensures StartsWith(loc.href, r.href) && '#' !in r.href
    ensures |r.href| < |loc.href| ==> loc.href[|r.href|] == '#'
    ensures '#' !in loc.href ==> r.href == loc.href
    ensures IndexOf(r.href, "#") != 0
  {
    var href := SplitHead(loc.href, '#');
    assert !OccursAt(href, "#", 0);
    Location(href, loc.query, map[])
  }

  /** Nothing but the pending snapshot's key is written or deleted. */
  ghost predicate OnlyPendingChanged(before: Store, after: Store) {
    forall k :: k != PendingKey ==> Load(after, k) == Load(before, k)
  }

  /** authorize (lines 101-173). The branch order is the source's: missing
      client, held token, restore of the pending snapshot, implicit token,
      first visit (redirect), code, error, and finally the cancellation reset,
      which re-runs the whole function. That re-run terminates because the
      snapshot was deleted before it. */
  function Authorize(s: Session, creds: Credentials, store: Store, loc: Location): (r: Step)
    ensures OnlyPendingChanged(store, r.store)
    ensures creds.client.None? || creds.token.Some? ==> r.store == store && r.creds == creds
    ensures r.outcome.NeedBroker? ==> r.creds.client.None? && (creds.client.None? || (PendingKey in store && PendingKey !in r.store))
    ensures r.outcome.Redirect? || r.outcome == Fail(MissingConfig("callbackURL")) ==>
      Load(r.store, PendingKey) == Some(Serialized(r.creds)) && r.creds.client.Some? && r.creds.token.None?
    ensures r.outcome.Exchange? || r.outcome.Authorized? || (r.outcome.Fail? && r.outcome.error.ProviderError?) ==>
      PendingKey in store && PendingKey !in r.store
    ensures r.outcome.Exchange? ==> r.creds == store[PendingKey] && r.outcome.code != ""
    ensures r.outcome.Authorized? ==> r.creds.token == Some(r.outcome.token) && Truthy(r.outcome.token.public)
    ensures ReadsFragment(creds, store, loc) ==> r.loc == FragmentRemoved(loc)
    ensures !ReadsFragment(creds, store, loc) ==> r.loc == loc
    ensures r.outcome.NeedBroker? && PendingKey in r.store ==> r.creds.grant == Some(Token) || r.loc == loc
    decreases if PendingKey in store then 1 else 0
  {
    var saved := Load(store, PendingKey);
    var args := if saved.Some? then ReturnArgs(creds, loc) else map[];
    var loc' := if ReadsFragment(creds, store, loc) then FragmentRemoved(loc) else loc;
    if creds.client.None? then
      Step(NeedBroker, creds, store, loc')
    else if creds.token.Some? then
      if Truthy(creds.token.value.public) then Step(Success, creds, store, loc')
      else Step(Fail(InvalidStoredToken), creds, store, loc')
    else
      var restored := if saved.Some? then saved.value else creds;
      var store' := if saved.Some? then store - {PendingKey} else store;
      if Truthy(Get(args, "access_token")) then
        var token := BearerToken(Get(args, "access_token"));
        Step(Authorized(token), restored.(token := Some(token)), store', loc')
      else if saved.None? then
        var committed := store[PendingKey := Serialized(creds)];
        match RedirectUrl(s, creds, None)
        case Ok(url) => Step(Redirect(url), creds, committed, loc')
        case Err(e) => Step(Fail(e), creds, committed, loc')
      else if Truthy(Get(args, "code")) then
        Step(Exchange(args["code"]), restored, store', loc')
      else if Truthy(Get(args, "error")) then
        Step(Fail(ProviderError(args["error"])), restored, store', loc')
      else
        match DeriveGrant(s.config.credentials)
        case Err(e) => Step(Fail(e), s.config.credentials, store', loc')
        case Ok(reset) => Authorize(s, reset, store', loc')
  }

  /** Without a client the broker comes first, before any snapshot is touched
      (lines 123-125); the fragment of an implicit-grant return is already
      gone from the address bar by then (lines 111-119). */
  lemma MissingClientGoesToBroker(s: Session, creds: Credentials, store: Store, loc: Location)
    requires creds.client.None?
    ensures var r := Authorize(s, creds, store, loc);
      && r.outcome == NeedBroker && r.creds == creds && r.store == store
      && (ReadsFragment(creds, store, loc) ==> r.loc.fragment == map[])
  {
  }

  /** A held token decides the outcome on its own (lines 127-134): success
      with a truthy `public`, `invalid_stored_token` otherwise; nothing changes. */
  lemma HeldTokenDecides(s: Session, creds: Credentials, store: Store, loc: Location)
    requires creds.client.Some? && creds.token.Some?
    ensures var r := Authorize(s, creds, store, loc);
      && r.store == store && r.creds == creds
      && (Truthy(creds.token.value.public) ==> r.outcome == Success)
      && (!Truthy(creds.token.value.public) ==> r.outcome == Fail(InvalidStoredToken))
  {
  }

  /** Credentials that pass hasCredentials (lines 184-190) authorize at once. */
  lemma HeldCredentialsSucceed(s: Session, creds: Credentials, store: Store, loc: Location)
    requires HasCredentials(creds)
    ensures var r := Authorize(s, creds, store, loc);
      r.outcome == Success && r.creds == creds && r.store == store
  {
  }

  /** First visit (lines 148-154 with getRedirectURL, lines 38-55): the
      snapshot of the live credentials is written, then the browser is sent to
      the authorization endpoint whose query holds exactly `response_type`,
      `client_id`, `redirect_uri` and a truthy `scope`, never `state`. A missing
      callback URL fails, but only after the snapshot has been written. */
  lemma FirstVisitRedirects(s: Session, creds: Credentials, store: Store, loc: Location)
    requires creds.client.Some? && creds.token.None? && PendingKey !in store
    ensures var r := Authorize(s, creds, store, loc);
      && r.store == store[PendingKey := Serialized(creds)]
      && r.creds == creds
      && (!Truthy(s.config.callbackURL) ==> r.outcome == Fail(MissingConfig("callbackURL")))
      && (Truthy(s.config.callbackURL) ==> r.outcome.Redirect? && r.outcome.url.query.Some?)
    ensures var r := Authorize(s, creds, store, loc);
      Truthy(s.config.callbackURL) && creds.grant.Some? && creds.client.value.id.Some? ==>
        && r.outcome.url.address == s.url + "/oauth2/authorize"
        && r.outcome.url.query.value.Keys ==
             {"response_type", "client_id", "redirect_uri"} + (if Truthy(s.scope) then {"scope"} else {})
        && r.outcome.url.query.value["response_type"] == creds.grant.value.ResponseType()
        && r.outcome.url.query.value["client_id"] == creds.client.value.id.value
        && r.outcome.url.query.value["redirect_uri"] == s.config.callbackURL.value
    ensures var r := Authorize(s, creds, store, loc);
      Truthy(s.config.callbackURL) ==> "state" !in r.outcome.url.query.value
  {
    var r := Authorize(s, creds, store, loc);
    if Truthy(s.config.callbackURL) && creds.grant.Some? && creds.client.value.id.Some? {
      var q := r.outcome.url.query.value;
      assert "response_type" in q && "client_id" in q && "redirect_uri" in q;
      assert "state" !in q;
    }
  }

  /** Return leg with an access token (lines 136-146): the snapshot is
      restored and deleted, and the token becomes `token.public`. */
  lemma ImplicitTokenAdopted(s: Session, creds: Credentials, store: Store, loc: Location)
    requires creds.client.Some? && creds.token.None? && PendingKey in store
    requires Truthy(Get(ReturnArgs(creds, loc), "access_token"))
    ensures var token := BearerToken(Get(ReturnArgs(creds, loc), "access_token"));
      var r := Authorize(s, creds, store, loc);
      && r.outcome == Authorized(token)
      && r.creds == store[PendingKey].(token := Some(token))
      && r.store == store - {PendingKey}
  {
  }

  /** Return leg with a code (lines 156-158): after the snapshot is consumed
      the code is handed to the exchange, whether or not an `error` came too. */
  lemma CodeIsExchanged(s: Session, creds: Credentials, store: Store, loc: Location)
    requires creds.client.Some? && creds.token.None? && PendingKey in store
    requires !Truthy(Get(ReturnArgs(creds, loc), "access_token"))
    requires Truthy(Get(ReturnArgs(creds, loc), "code"))
    ensures var r := Authorize(s, creds, store, loc);
      && r.outcome == Exchange(ReturnArgs(creds, loc)["code"])
      && r.creds == store[PendingKey]
      && r.store == store - {PendingKey}
  {
  }

  /** Return leg with an error and no code (lines 161-164): rejects with the
      provider's value. */
  lemma ProviderErrorRejects(s: Session, creds: Credentials, store: Store, loc: Location)
    requires creds.client.Some? && creds.token.None? && PendingKey in store
    requires !Truthy(Get(ReturnArgs(creds, loc), "access_token"))
    requires !Truthy(Get(ReturnArgs(creds, loc), "code"))
    requires Truthy(Get(ReturnArgs(creds, loc), "error"))
    ensures var r := Authorize(s, creds, store, loc);
      && r.outcome == Fail(ProviderError(ReturnArgs(creds, loc)["error"]))
      && r.creds == store[PendingKey]
      && r.store == store - {PendingKey}
  {
  }

  /** Return leg with neither token, code nor error (lines 166-172): the
      credentials are reset from the configuration with the grant re-derived,
      and the re-run decides as a fresh call would. Without a configured
      client it goes to the broker; with a configured token it settles on
      that token (lines 127-134); otherwise it sends the browser to the
      provider again with a fresh snapshot. The cancellation itself is never
      reported as an error. */
  lemma CancellationRestarts(s: Session, creds: Credentials, store: Store, loc: Location)
    requires creds.client.Some? && creds.token.None? && PendingKey in store
    requires !Truthy(Get(ReturnArgs(creds, loc), "access_token"))
    requires !Truthy(Get(ReturnArgs(creds, loc), "code"))
    requires !Truthy(Get(ReturnArgs(creds, loc), "error"))
    ensures var r := Authorize(s, creds, store, loc);
      var reset := DeriveGrant(s.config.credentials);
      && (reset.Err? ==> r.outcome == Fail(UndefinedProperty("secret")) && r.store == store - {PendingKey})
      && (reset.Ok? && reset.value.client.None? ==>
            r.outcome == NeedBroker && r.creds == reset.value && r.store == store - {PendingKey})
      && (reset.Ok? && reset.value.client.Some? && reset.value.token.Some? ==>
            && r.creds == reset.value
            && r.store == store - {PendingKey}
            && (Truthy(reset.value.token.value.public) ==> r.outcome == Success)
            && (!Truthy(reset.value.token.value.public) ==> r.outcome == Fail(InvalidStoredToken)))
      && (reset.Ok? && reset.value.client.Some? && reset.value.token.None? ==>
            && r.creds == reset.value
            && r.store == (store - {PendingKey})[PendingKey := Serialized(reset.value)]
            && (r.outcome.Redirect? <==> Truthy(s.config.callbackURL))
            && (!Truthy(s.config.callbackURL) ==> r.outcome == Fail(MissingConfig("callbackURL"))))
  {
    var reset := DeriveGrant(s.config.credentials);
    var loc' := if ReadsFragment(creds, store, loc) then FragmentRemoved(loc) else loc;
    if reset.Ok? && reset.value.client.Some? && reset.value.token.None? {
      FirstVisitRedirects(s, reset.value, store - {PendingKey}, loc');
    }
  }
}

=== FILE: creds.dfy ===
/** The live credentials a client instance holds, the grant type derived
    from them, and what survives their JSON round trip through the store
    (src/index.js:7-12, 137, 151, 168-171). */
module Creds {
  import opened Js
  import opened Errors

  /** `credentials.type`: the OAuth2 grant, sent as `response_type`. */
  datatype GrantType = Code | Token {
    function ResponseType(): string {
      match this
      case Code => "code"
      case Token => "token"
    }
  }

  /** `credentials.client.secret`. Whether the key is present (`'secret' in
      client`) and whether its value is truthy are separate questions in the
      source, so a key holding undefined is kept apart from a missing key. */
  datatype Secret = NoSecretKey | SecretKey(value: Option<string>)

  /** `credentials.client`: the app identity. */
  datatype ClientCreds = ClientCreds(id: Option<string>, secret: Secret)

  /** `credentials.token`: the bearer access token object. */
  datatype BearerToken = BearerToken(public: Option<string>)

  /** `credentials`: every member may be absent. */
  datatype Credentials = Credentials(
    grant: Option<GrantType>,
    client: Option<ClientCreds>,
    token: Option<BearerToken>)

  /** `client.secret` is truthy. */
  predicate HasTruthySecret(c: ClientCreds) {
    c.secret.SecretKey? && Truthy(c.secret.value)
  }

  /** Fills in a missing `type` from the client secret, as the constructor
      (lines 10-12) and the cancellation reset (lines 169-171) both do; reading
      `client.secret` throws when there is no client. */
  function DeriveGrant(c: Credentials): (r: Result<Credentials, AuthError>)
    ensures r.Ok? <==> c.grant.Some? || c.client.Some?
    ensures r.Err? ==> r.error == UndefinedProperty("secret")
    ensures r.Ok? ==> r.value.grant.Some? && r.value.client == c.client && r.value.token == c.token
    ensures r.Ok? && c.grant.Some? ==> r.value.grant == c.grant
    ensures r.Ok? && c.grant.None? ==> (r.value.grant == Some(Code) <==> HasTruthySecret(c.client.value))
  {
    if c.grant.Some? then Ok(c)
    else if c.client.None? then Err(UndefinedProperty("secret"))
    else Ok(c.(grant := Some(if HasTruthySecret(c.client.value) then Code else Token)))
  }

  /** A client whose `secret` key holds undefined. */
  predicate HasUndefinedSecret(c: Credentials) {
    c.client.Some? && c.client.value.secret == SecretKey(None)
  }

  /** JSON.parse(JSON.stringify(c)): JSON drops members whose value is
      undefined; of the members here that changes only a `secret` key holding
      undefined, which disappears. */
  function Serialized(c: Credentials): (r: Credentials)
    ensures r.grant == c.grant && r.token == c.token
    ensures r.client.Some? <==> c.client.Some?
    ensures c.client.Some? ==> r.client.value.id == c.client.value.id
    ensures c.client.Some? && c.client.value.secret != SecretKey(None) ==> r.client == c.client
    ensures c.client.Some? && c.client.value.secret == SecretKey(None) ==> r.client.value.secret == NoSecretKey
    ensures !HasUndefinedSecret(r)
  {
    if HasUndefinedSecret(c) then c.(client := Some(c.client.value.(secret := NoSecretKey))) else c
  }

  /** Storing credentials and reading them back gives them back exactly when
      no member was undefined, and a second round trip changes nothing. */
  lemma SerializedRoundTrip(c: Credentials)
    ensures Serialized(c) == c <==> !HasUndefinedSecret(c)
    ensures Serialized(Serialized(c)) == Serialized(c)
    ensures Serialized(c).grant == c.grant && Serialized(c).token == c.token
    ensures Serialized(c).client.Some? <==> c.client.Some?
    ensures c.client.Some? ==> Serialized(c).client.value.id == c.client.value.id
    ensures c.client.Some? ==> (HasTruthySecret(Serialized(c).client.value) <==> HasTruthySecret(c.client.value))
  {
    if HasUndefinedSecret(c) {
      assert Serialized(c).client.value.secret == NoSecretKey;
    }
  }
}

=== FILE: errors.dfy ===
/** The ways an authorization step or a request can fail. */
module Errors {
  import opened Js

  datatype AuthError =
      /** `new Error('Config does not include a <setting> value.')` */
    | MissingConfig(setting: string)
      /** The TypeError a property read on undefined throws, naming the property read. */
    | UndefinedProperty(property: string)
      /** A stored token object without a `public` value. */
    | InvalidStoredToken
      /** The `error` parameter the provider sent back on the return navigation. */
    | ProviderError(reported: string)
      /** The object thrown when the broker answers with `status: 'error'`. */
    | BrokerError(message: string, code: Option<string>)
      /** A non-success HTTP status: the body's `message`, `code` and `data`. */
    | HttpError(message: string, code: Option<string>, data: Option<string>)
}

=== FILE: exchange.dfy ===
/** The two network exchanges that complete the credentials: client
    credentials from the broker (src/index.js:16-36) and the access token
    for an authorization code (src/index.js:57-91). Each is split into the
    request the client sends and the adoption of the reply it receives. */
module TokenExchange {
  import opened Js
  import opened Errors
  import opened Creds
  import opened Instance
  import opened Requests

  /** getClientCredentials up to the network call (lines 16-23): without
      broker credentials it throws; otherwise it provisionally installs the
      broker's client and posts the server URL to the broker's connect endpoint. */
  function ConnectBroker(s: Session, creds: Credentials): (r: Result<(Credentials, Request), AuthError>)
    ensures r.Err? <==> s.config.brokerCredentials.None?
    ensures r.Err? ==> r.error == MissingConfig("brokerCredentials")
    ensures r.Ok? ==> var (c, q) := r.value;
      && c == creds.(client := s.config.brokerCredentials.value.client)
      && q == BuildRequest(s, c, "POST", Text(s.config.brokerURL) + "broker/connect",
                           Some(Put(map[], "server_url", s.config.url)))
      && q.verb == "POST"
      && q.body == Some(Put(map[], "server_url", s.config.url))
      && q.headers.contentType == Some(FormType)
      && q.url.query.None?
  {
    match s.config.brokerCredentials
    case None => Err(MissingConfig("brokerCredentials"))
    case Some(broker) =>
      var c := creds.(client := broker.client);
      var url := Text(s.config.brokerURL) + "broker/connect";
      Ok((c, BuildRequest(s, c, "POST", url, Some(Put(map[], "server_url", s.config.url)))))
  }

  /** The broker reply handler (lines 24-35, after parseResponse): an HTTP
      failure or a body with `status: 'error'` is an error; otherwise the
      returned token and secret become the client, with the `secret` key
      always present. */
  function AdoptBrokerReply(creds: Credentials, resp: Response): (r: Result<Credentials, AuthError>)
    ensures !resp.ok ==> r.Err? && r.error.HttpError?
    ensures !resp.ok ==> r == Err(ParseResponse(resp).error)
    ensures resp.ok && Get(resp.data, "status") == Some("error") ==>
      r == Err(BrokerError("Broker error: " + Text(Get(resp.data, "message")), Get(resp.data, "type")))
    ensures r.Ok? <==> resp.ok && Get(resp.data, "status") != Some("error")
    ensures r.Ok? ==>
      && r.value.grant == creds.grant
      && r.value.token == creds.token
      && r.value.client == Some(ClientCreds(Get(resp.data, "client_token"), SecretKey(Get(resp.data, "client_secret"))))
  {
    match ParseResponse(resp)
    case Err(e) => Err(e)
    case Ok(data) =>
      if Truthy(Get(data, "status")) && Get(data, "status") == Some("error") then
        Err(BrokerError("Broker error: " + Text(Get(data, "message")), Get(data, "type")))
      else
        Ok(creds.(client := Some(ClientCreds(Get(data, "client_token"), SecretKey(Get(data, "client_secret"))))))
  }

  /** The token reply handler (lines 79-90): a failure status rejects with
      the body's message; otherwise `access_token` becomes `token.public`
      and the token object is the result. */
  function AdoptAccessToken(creds: Credentials, resp: Response): (r: Result<(Credentials, BearerToken), AuthError>)
    ensures r.Ok? <==> resp.ok
    ensures r.Err? ==> r.error == HttpError(Get(resp.data, "message").GetOr(""), None, None)
    ensures r.Ok? ==> var (c, t) := r.value;
      && t.public == Get(resp.data, "access_token")
      && c == creds.(token := Some(t))
  {
    if !resp.ok then Err(HttpError(Get(resp.data, "message").GetOr(""), None, None))
    else
      var t := BearerToken(Get(resp.data, "access_token"));
      Ok((creds.(token := Some(t)), t))
  }

  /** The client the broker reply installs always has a `secret` key, so an
      exchange built from it would sign itself with HTTP Basic authentication
      (section 2.3.1 of RFC 6749). The exchange the flow actually sends is
      built from the JSON snapshot of those credentials (lines 137, 151,
      158), which keeps the key only when the reply carried `client_secret`:
      without it the exchange goes out unsigned. */
  lemma BrokerClientUsesBasicAuth(s: Session, creds: Credentials, resp: Response, code: string)
    requires AdoptBrokerReply(creds, resp).Ok?
    ensures var c := AdoptBrokerReply(creds, resp).value;
      AccessTokenRequest(s, c, code).Ok? && AccessTokenRequest(s, c, code).value.headers.authorization.Some?
    ensures var c := Serialized(AdoptBrokerReply(creds, resp).value);
      && AccessTokenRequest(s, c, code).Ok?
      && (AccessTokenRequest(s, c, code).value.headers.authorization.Some? <==> "client_secret" in resp.data)
  {
  }
}

=== FILE: flow.dfy ===
/** One call of `authorize` carried through the network calls it starts:
    the broker detour (`getClientCredentials().then(authorize)`, line 124)
    and the code exchange (`getAccessToken(code)`, line 158). The replies the
    network gives are inputs; the requests sent are recorded in order. */
module Flow {
  import opened Js
  import opened Errors
  import opened Creds
  import opened CredentialStore
  import opened Instance
  import opened Requests
  import opened TokenExchange
  import opened Authorization

  /** What the broker and the token endpoint answer, if asked. */
  datatype Replies = Replies(broker: Response, token: Response)

  /** How the call settles, with the credentials, the store and the requests sent. */
  datatype Final = Final(outcome: Outcome, creds: Credentials, store: Store, sent: seq<Request>)

  /** Finishes a step: an `Exchange` sends the token request and adopts the
      reply (getAccessToken resolves with the token object); any other
      outcome is final as it stands. */
  function Settle(s: Session, step: Step, replies: Replies): (r: Final)
    ensures !r.outcome.Exchange?
    ensures r.store == step.store
    ensures !step.outcome.Exchange? ==> r == Final(step.outcome, step.creds, step.store, [])
    ensures step.outcome.Exchange? ==> |r.sent| <= 1
    ensures step.outcome.Exchange? && step.creds.client.None? ==>
      r == Final(Fail(UndefinedProperty("id")), step.creds, step.store, [])
    ensures step.outcome.Exchange? && step.creds.client.Some? ==>
      && r.sent == [AccessTokenRequest(s, step.creds, step.outcome.code).value]
      && (replies.token.ok ==>
            var token := BearerToken(Get(replies.token.data, "access_token"));
            r.outcome == Authorized(token) && r.creds == step.creds.(token := Some(token)))
      && (!replies.token.ok ==>
            && r.outcome == Fail(HttpError(Get(replies.token.data, "message").GetOr(""), None, None))
            && r.creds == step.creds)
  {
    if !step.outcome.Exchange? then Final(step.outcome, step.creds, step.store, [])
    else
      match AccessTokenRequest(s, step.creds, step.outcome.code)
      case Err(e) => Final(Fail(e), step.creds, step.store, [])
      case Ok(request) =>
        match AdoptAccessToken(step.creds, replies.token)
        case Err(e) => Final(Fail(e), step.creds, step.store, [request])
        case Ok((c, t)) => Final(Authorized(t), c, step.store, [request])
  }

  /** The broker detour of a `NeedBroker` step (lines 16-35): either the
      issued credentials with the connect request that obtained them, or the
      failure the call settles on. */
  function BrokerLeg(s: Session, step: Step, replies: Replies): (r: Result<(Credentials, Request), Final>)
    ensures r.Ok? ==> var (c, request) := r.value;
      && c.client.Some?
      && c.grant == step.creds.grant
      && c.token == step.creds.token
      && request.body == Some(Put(map[], "server_url", s.config.url))
    ensures r.Ok? <==> s.config.brokerCredentials.Some? && AdoptBrokerReply(step.creds, replies.broker).Ok?
    ensures r.Err? ==> r.error.outcome.Fail? && r.error.store == step.store && |r.error.sent| <= 1
    ensures s.config.brokerCredentials.None? ==>
      r == Err(Final(Fail(MissingConfig("brokerCredentials")), step.creds, step.store, []))
    ensures s.config.brokerCredentials.Some? ==>
      var (c, request) := ConnectBroker(s, step.creds).value;
      && c == step.creds.(client := s.config.brokerCredentials.value.client)
      && request.url.address == (if StartsWith(Text(s.config.brokerURL) + "broker/connect", "http")
                                 then Text(s.config.brokerURL) + "broker/connect"
                                 else s.url + Text(s.config.brokerURL) + "broker/connect")
      && (r.Ok? ==>
            && r.value.1 == request
            && r.value.0 == c.(client := Some(ClientCreds(Get(replies.broker.data, "client_token"),
                                                          SecretKey(Get(replies.broker.data, "client_secret"))))))
      && (r.Err? ==>
            && r.error.creds == c
            && r.error.sent == [request]
            && r.error.outcome == Fail(AdoptBrokerReply(c, replies.broker).error))
  {
    match ConnectBroker(s, step.creds)
    case Err(e) => Err(Final(Fail(e), step.creds, step.store, []))
    case Ok((c, request)) =>
      match AdoptBrokerReply(c, replies.broker)
      case Err(e) => Err(Final(Fail(e), c, step.store, [request]))
      case Ok(c') => Ok((c', request))
  }

  /** authorize with its network calls carried out. Each broker detour ends
      by running authorize again (line 124) at the location the first pass
      left behind, whose fragment may already have been removed (lines
      111-119). A second detour can follow only when the cancellation reset
      leaves no client, and by then the pending snapshot is gone, so at most
      two requests are sent in all. */
  function Run(s: Session, creds: Credentials, store: Store, loc: Location, replies: Replies): (r: Final)
    ensures !r.outcome.Exchange? && !r.outcome.NeedBroker?
    ensures OnlyPendingChanged(store, r.store)
    ensures |r.sent| <= (if PendingKey in store then 1 else 0) + (if creds.client.None? then 1 else 0)
    decreases (if PendingKey in store then 2 else 0) + (if creds.client.None? then 1 else 0)
  {
    var first := Authorize(s, creds, store, loc);
    if !first.outcome.NeedBroker? then Settle(s, first, replies)
    else
      match BrokerLeg(s, first, replies)
      case Err(f) => f
      case Ok((c, request)) =>
        var f := Run(s, c, first.store, first.loc, replies);
        f.(sent := [request] + f.sent)
  }

  /** `Run` as evidently intended: the re-run after a broker detour still
      sees the return parameters the call began with, so an implicit-grant
      token in the fragment survives the detour. */
  function RunKeepingFragment(s: Session, creds: Credentials, store: Store, loc: Location, replies: Replies): (r: Final)
    ensures !r.outcome.Exchange? && !r.outcome.NeedBroker?
    ensures OnlyPendingChanged(store, r.store)
    ensures |r.sent| <= (if PendingKey in store then 1 else 0) + (if creds.client.None? then 1 else 0)
    decreases (if PendingKey in store then 2 else 0) + (if creds.client.None? then 1 else 0)
  {
    var first := Authorize(s, creds, store, loc);
    if !first.outcome.NeedBroker? then Settle(s, first, replies)
    else
      match BrokerLeg(s, first, replies)
      case Err(f) => f
      case Ok((c, request)) =>
        var f := RunKeepingFragment(s, c, first.store, loc, replies);
        f.(sent := [request] + f.sent)
  }

  /** The two differ only on a return leg that read the fragment: when the
      first pass does not take the fragment branch, neither does any later
      pass, and both runs agree. */
  lemma {:induction false} KeepingFragmentChangesOnlyFragmentReturns(
    s: Session, creds: Credentials, store: Store, loc: Location, replies: Replies)
    requires !ReadsFragment(creds, store, loc)
    ensures Run(s, creds, store, loc, replies) == RunKeepingFragment(s, creds, store, loc, replies)
    decreases (if PendingKey in store then 2 else 0) + (if creds.client.None? then 1 else 0)
  {
    var first := Authorize(s, creds, store, loc);
    if first.outcome.NeedBroker? {
      var leg := BrokerLeg(s, first, replies);
      if leg.Ok? {
        var (c, request) := leg.value;
        KeepingFragmentChangesOnlyFragmentReturns(s, c, first.store, loc, replies);
      }
    }
  }

  /** The implicit-grant return through the broker, as written: a pending
      snapshot and a token in the fragment, but no live client, as on every
      page load when the client comes from the broker. The fragment is
      removed before the detour, the re-run finds no parameters, treats the
      return as a cancellation and, the configuration having no client,
      goes back to the broker and redirects once more: the token is never
      adopted. */
  lemma ImplicitReturnLostAfterBroker(s: Session, creds: Credentials, store: Store, loc: Location, replies: Replies)
    requires creds.client.None? && creds.token.None? && ReadsFragment(creds, store, loc)
    requires Truthy(Get(loc.fragment, "access_token"))
    requires s.config.credentials == Credentials(Some(Token), None, None)
    requires s.config.brokerCredentials.Some? && Truthy(s.config.callbackURL)
    requires replies.broker.ok && Get(replies.broker.data, "status") != Some("error")
    ensures var r := Run(s, creds, store, loc, replies);
      && r.outcome.Redirect?
      && |r.sent| == 2
      && Load(r.store, PendingKey) == Some(Serialized(r.creds))
  {
    var first := Authorize(s, creds, store, loc);
    var (c1, q1) := BrokerLeg(s, first, replies).value;
    var loc1 := FragmentRemoved(loc);
    assert ReturnArgs(c1, loc1) == map[];
    CancellationRestarts(s, c1, store, loc1);
    var second := Authorize(s, c1, store, loc1);
    var (c2, q2) := BrokerLeg(s, second, replies).value;
    FirstVisitRedirects(s, c2, store - {PendingKey}, second.loc);
    var last := Run(s, c2, store - {PendingKey}, second.loc, replies);
    assert last.outcome.Redirect? && last.sent == [];
    var middle := Run(s, c1, store, loc1, replies);
    assert middle == last.(sent := [q2] + last.sent);
  }

  /** The same return with the correction: the re-run after the broker reads
      the fragment, adopts its token and sends only the one broker request. */
  lemma ImplicitReturnAdoptedAfterBroker(s: Session, creds: Credentials, store: Store, loc: Location, replies: Replies)
    requires creds.client.None? && creds.token.None? && ReadsFragment(creds, store, loc)
    requires Truthy(Get(loc.fragment, "access_token"))
    requires s.config.brokerCredentials.Some?
    requires replies.broker.ok && Get(replies.broker.data, "status") != Some("error")
    ensures var r := RunKeepingFragment(s, creds, store, loc, replies);
      var token := BearerToken(Get(loc.fragment, "access_token"));
      && r.outcome == Authorized(token)
      && r.creds == store[PendingKey].(token := Some(token))
      && r.store == store - {PendingKey}
      && |r.sent| == 1
  {
    var first := Authorize(s, creds, store, loc);
    var (c1, q1) := BrokerLeg(s, first, replies).value;
    IndexOfZeroIffPrefix(loc.href, "#");
    ImplicitTokenAdopted(s, c1, store, loc);
  }

  /** A fresh start with a complete configuration: a snapshot of the
      constructed credentials is stored, the browser is sent to the
      authorization endpoint, and no request is made. */
  lemma FreshStartRedirects(config: Config, store: Store, loc: Location, replies: Replies)
    requires Construct(config).Ok?
    requires config.credentials.client.Some? && config.credentials.token.None?
    requires Truthy(config.callbackURL)
    requires PendingKey !in store
    ensures var (s, creds) := Construct(config).value;
      var r := Run(s, creds, store, loc, replies);
      && r.outcome.Redirect?
      && r.sent == []
      && r.creds == creds
      && r.store == store[PendingKey := Serialized(creds)]
  {
    var (s, creds) := Construct(config).value;
    FirstVisitRedirects(s, creds, store, loc);
  }

  /** Return leg with a code: exactly one token request is sent, carrying that
      code, and a successful reply's `access_token` becomes `token.public`. */
  lemma CodeReturnExchangesOnce(s: Session, creds: Credentials, store: Store, loc: Location, replies: Replies)
    requires creds.client.Some? && creds.token.None? && PendingKey in store
    requires store[PendingKey].client.Some?
    requires !Truthy(Get(ReturnArgs(creds, loc), "access_token"))
    requires Truthy(Get(ReturnArgs(creds, loc), "code"))
    requires replies.token.ok && Truthy(Get(replies.token.data, "access_token"))
    ensures var r := Run(s, creds, store, loc, replies);
      var token := BearerToken(Get(replies.token.data, "access_token"));
      && r.outcome == Authorized(token)
      && r.creds == store[PendingKey].(token := Some(token))
      && r.store == store - {PendingKey}
      && |r.sent| == 1
      && r.sent[0].url.address == s.url + "/oauth2/access_token"
      && r.sent[0].body.Some?
      && Get(r.sent[0].body.value, "code") == Get(ReturnArgs(creds, loc), "code")
      && Get(r.sent[0].body.value, "grant_type") == Some("authorization_code")
  {
    CodeIsExchanged(s, creds, store, loc);
  }

  /** Return leg with a code whose exchange the token endpoint refuses:
      the one token request is sent, the call rejects with the reply's
      message, and the consumed snapshot stays consumed. */
  lemma CodeReturnRefusedReply(s: Session, creds: Credentials, store: Store, loc: Location, replies: Replies)
    requires creds.client.Some? && creds.token.None? && PendingKey in store
    requires store[PendingKey].client.Some?
    requires !Truthy(Get(ReturnArgs(creds, loc), "access_token"))
    requires Truthy(Get(ReturnArgs(creds, loc), "code"))
    requires !replies.token.ok
    ensures var r := Run(s, creds, store, loc, replies);
      && r.outcome == Fail(HttpError(Get(replies.token.data, "message").GetOr(""), None, None))
      && r.creds == store[PendingKey]
      && r.store == store - {PendingKey}
      && r.sent == [AccessTokenRequest(s, store[PendingKey], ReturnArgs(creds, loc)["code"]).value]
  {
    CodeIsExchanged(s, creds, store, loc);
  }

  /** Return leg with a provider error and no code, when the page has no
      live client yet (a broker-provisioned client): the connect request goes
      out first (line 124), then the re-run rejects with the provider's
      error. This holds whenever the first pass does not read the fragment;
      under the implicit grant the fragment's error is lost instead (see
      `ImplicitReturnLostAfterBroker`). */
  lemma ProviderErrorAfterBroker(s: Session, creds: Credentials, store: Store, loc: Location, replies: Replies)
    requires creds.client.None? && creds.token.None? && PendingKey in store
    requires !ReadsFragment(creds, store, loc)
    requires !Truthy(Get(ReturnArgs(creds, loc), "access_token"))
    requires !Truthy(Get(ReturnArgs(creds, loc), "code"))
    requires Truthy(Get(ReturnArgs(creds, loc), "error"))
    requires s.config.brokerCredentials.Some?
    requires replies.broker.ok && Get(replies.broker.data, "status") != Some("error")
    ensures var r := Run(s, creds, store, loc, replies);
      && r.outcome == Fail(ProviderError(ReturnArgs(creds, loc)["error"]))
      && |r.sent| == 1
      && r.sent[0].body == Some(Put(map[], "server_url", s.config.url))
      && r.store == store - {PendingKey}
  {
    var first := Authorize(s, creds, store, loc);
    var (c, request) := BrokerLeg(s, first, replies).value;
    assert ReturnArgs(c, loc) == ReturnArgs(creds, loc);
    ProviderErrorRejects(s, c, store, loc);
  }

  /** Return leg with a provider error and no code, with a live client:
      rejects with that value and makes no request. */
  lemma ProviderErrorSendsNothing(s: Session, creds: Credentials, store: Store, loc: Location, replies: Replies)
    requires creds.client.Some? && creds.token.None? && PendingKey in store
    requires !Truthy(Get(ReturnArgs(creds, loc), "access_token"))
    requires !Truthy(Get(ReturnArgs(creds, loc), "code"))
    requires Truthy(Get(ReturnArgs(creds, loc), "error"))
    ensures var r := Run(s, creds, store, loc, replies);
      && r.outcome == Fail(ProviderError(ReturnArgs(creds, loc)["error"]))
      && r.sent == []
      && r.store == store - {PendingKey}
  {
    ProviderErrorRejects(s, creds, store, loc);
  }

  /** Return leg after a cancellation, with a configured client and callback:
      the flow silently restarts, redirecting again with a fresh snapshot of
      the re-derived configuration credentials, and makes no request. */
  lemma CancellationRedirectsAgain(s: Session, creds: Credentials, store: Store, loc: Location, replies: Replies)
    requires creds.client.Some? && creds.token.None? && PendingKey in store
    requires !Truthy(Get(ReturnArgs(creds, loc), "access_token"))
    requires !Truthy(Get(ReturnArgs(creds, loc), "code"))
    requires !Truthy(Get(ReturnArgs(creds, loc), "error"))
    requires s.config.credentials.client.Some? && s.config.credentials.token.None?
    requires Truthy(s.config.callbackURL)
    ensures var r := Run(s, creds, store, loc, replies);
      var reset := DeriveGrant(s.config.credentials).value;
      && r.outcome.Redirect?
      && r.sent == []
      && r.creds == reset
      && r.store == (store - {PendingKey})[PendingKey := Serialized(reset)]
  {
    CancellationRestarts(s, creds, store, loc);
  }

  /** First visit without a client: one request goes to the broker, and its
      issued client is the one the browser is sent to the provider with and
      the one stored in the snapshot. */
  lemma BrokerThenRedirect(s: Session, creds: Credentials, store: Store, loc: Location, replies: Replies)
    requires creds.client.None? && creds.token.None? && PendingKey !in store
    requires s.config.brokerCredentials.Some?
    requires replies.broker.ok && Get(replies.broker.data, "status") != Some("error")
    requires Truthy(s.config.callbackURL)
    ensures var r := Run(s, creds, store, loc, replies);
      var client := ClientCreds(Get(replies.broker.data, "client_token"), SecretKey(Get(replies.broker.data, "client_secret")));
      && |r.sent| == 1
      && r.sent[0].body == Some(Put(map[], "server_url", s.config.url))
      && r.outcome.Redirect?
      && r.creds.client == Some(client)
      && Load(r.store, PendingKey) == Some(Serialized(r.creds))
      && r.outcome.url.query.Some?
      && Get(r.outcome.url.query.value, "client_id") == client.id
  {
    var (c, request) := ConnectBroker(s, creds).value;
    var c' := AdoptBrokerReply(c, replies.broker).value;
    FirstVisitRedirects(s, c', store, loc);
  }
}

=== FILE: instance.dfy ===
/** The configuration a client is created with, and the constructor that
    derives the API root, the scope and the starting credentials from it
    (src/index.js:4-14). */
module Instance {
  import opened Js
  import opened Errors
  import opened Creds

  /** `config.brokerCredentials`. */
  datatype BrokerCredentials = BrokerCredentials(client: Option<ClientCreds>)

  /** The members of `config` the client reads; `credentials` stands for
      `Object.assign({}, config.credentials)`, so an undefined
      `config.credentials` is the record with every member absent. */
  datatype Config = Config(
    url: Option<string>,
    restUrl: Option<string>,
    credentials: Credentials,
    scope: Option<string>,
    callbackURL: Option<string>,
    brokerURL: Option<string>,
    brokerCredentials: Option<BrokerCredentials>)

  /** The immutable part of a client instance: `this.url`, `this.scope`,
      `this.config`. The live credentials are passed separately. */
  datatype Session = Session(url: string, scope: Option<string>, config: Config)

  /** The API root before its trailing slash is removed: `rest_url` when
      truthy, else `url + 'wp-json'`. */
  function ApiRoot(config: Config): (r: string)
    ensures Truthy(config.restUrl) ==> r == config.restUrl.value
    ensures !Truthy(config.restUrl) ==>
      StartsWith(r, Text(config.url)) && r[|Text(config.url)|..] == "wp-json"
  {
    if Truthy(config.restUrl) then config.restUrl.value else Text(config.url) + "wp-json"
  }

  /** `u.replace(/\/$/, '')`: removes one trailing slash, if any. */
  function StripTrailingSlash(u: string): (r: string)
    ensures |u| > 0 && u[|u| - 1] == '/' ==> r + "/" == u
    ensures !(|u| > 0 && u[|u| - 1] == '/') ==> r == u
  {
    if |u| > 0 && u[|u| - 1] == '/' then u[..|u| - 1] else u
  }

  /** The constructor: it throws when no `type` is configured and there is no
      client to read a secret from. */
  function Construct(config: Config): (r: Result<(Session, Credentials), AuthError>)
    ensures r.Ok? <==> config.credentials.grant.Some? || config.credentials.client.Some?
    ensures r.Ok? ==> r.value.0.config == config
    ensures r.Ok? ==> r.value.0.url == StripTrailingSlash(ApiRoot(config))
    ensures r.Ok? ==> (r.value.0.scope.Some? <==> Truthy(config.scope))
    ensures r.Ok? && Truthy(config.scope) ==> r.value.0.scope == config.scope
    ensures r.Ok? ==> r.value.1.client == config.credentials.client && r.value.1.token == config.credentials.token
    ensures r.Ok? && config.credentials.grant.Some? ==> r.value.1.grant == config.credentials.grant
    ensures r.Ok? && config.credentials.grant.None? ==>
      (r.value.1.grant == Some(Code) <==> HasTruthySecret(config.credentials.client.value))
    ensures r.Ok? && config.credentials.grant.None? ==>
      (r.value.1.grant == Some(Token) <==> !HasTruthySecret(config.credentials.client.value))
  {
    var session := Session(
      StripTrailingSlash(ApiRoot(config)),
      if Truthy(config.scope) then config.scope else None,
      config);
    match DeriveGrant(config.credentials)
    case Ok(creds) => Ok((session, creds))
    case Err(e) => Err(e)
  }

  /** The cancellation reset (lines 168-171) derives the same credentials the
      constructor started with. */
  lemma ResetMatchesConstruction(config: Config)
    requires Construct(config).Ok?
    ensures DeriveGrant(config.credentials) == Ok(Construct(config).value.1)
  {
  }
}

=== FILE: js.dfy ===
/** JavaScript value semantics the client relies on: possibly undefined values,
    truthiness, the text a template literal prints, plain objects of string
    properties, and String.prototype.indexOf. */
module Js {

  /** A value that may be undefined (or null: the client never tells them apart). */
  datatype Option<+T> = None | Some(value: T) {

    /** The value, or a default when undefined. */
    function GetOr(default: T): T {
      match this
      case Some(v) => v
      case None => default
    }
  }

  /** A computation that either returns a value or throws (or rejects with) an error. */
  datatype Result<+R, +E> = Ok(value: R) | Err(error: E)

  /** A plain object of string-valued properties: a parsed query string or
      fragment, a form body before encoding, or a parsed JSON response.
      A key that is not in the map reads as undefined. */
  type Params = map<string, string>

  /** Reads property `key` of `p`. */
  function Get(p: Params, key: string): Option<string> {
    if key in p then Some(p[key]) else None
  }

  /** Sets property `key` unless `value` is undefined: qs.stringify leaves
      undefined members out of the encoded string, so such a member is never sent. */
  function Put(p: Params, key: string, value: Option<string>): Params {
    if value.Some? then p[key := value.value] else p
  }

  /** JavaScript truthiness of a possibly undefined string: undefined, null and "" are falsy. */
  predicate Truthy(s: Option<string>) {
    s.Some? && s.value != ""
  }

  /** The text `${s}` or `a + s` produces: an undefined value prints as "undefined". */
  function Text(s: Option<string>): string {
    match s
    case Some(v) => v
    case None => "undefined"
  }

  /** `sub` occurs in `s` starting at index `i`. */
  predicate OccursAt(s: string, sub: string, i: nat) {
    i + |sub| <= |s| && s[i..i + |sub|] == sub
  }

  predicate StartsWith(s: string, prefix: string) {
    |prefix| <= |s| && s[..|prefix|] == prefix
  }

  /** s.indexOf(sub): the first index at which `sub` occurs, or -1 when it
      does not occur at all. The empty string occurs at index 0. */
  function IndexOf(s: string, sub: string): (r: int)
    ensures -1 <= r <= |s|
    ensures r >= 0 ==> OccursAt(s, sub, r)
    ensures forall j: nat :: j < r ==> !OccursAt(s, sub, j)
    ensures r == -1 ==> forall j: nat :: j <= |s| ==> !OccursAt(s, sub, j)
  {
    IndexFrom(s, sub, 0)
  }

  /** The first occurrence of `sub` in `s` at or after `from`, or -1. */
  function IndexFrom(s: string, sub: string, from: nat): (r: int)
    requires from <= |s|
    ensures r == -1 || from <= r <= |s|
    ensures r >= 0 ==> OccursAt(s, sub, r)
    ensures forall j: nat :: from <= j < r ==> !OccursAt(s, sub, j)
    ensures r == -1 ==> forall j: nat :: from <= j <= |s| ==> !OccursAt(s, sub, j)
    decreases |s| - from
  {
    if OccursAt(s, sub, from) then from
    else if from == |s| then -1
    else IndexFrom(s, sub, from + 1)
  }

  /** s.split(sep)[0] for a one-character separator: the longest prefix of
      `s` without `sep`, which is all of `s` when `sep` does not occur. */
  function SplitHead(s: string, sep: char): (r: string)
    ensures StartsWith(s, r)
    ensures sep !in r
    ensures |r| < |s| ==> s[|r|] == sep
  {
    var i := IndexOf(s, [sep]);
    var bound := if i < 0 then |s| else i;
    forall j | 0 <= j < bound
      ensures s[j] != sep
    {
      assert !OccursAt(s, [sep], j);
      assert s[j..j + 1] == [s[j]];
    }
    if i >= 0 then
      assert s[i..i + 1] == [sep];
      s[..i]
    else s
  }

  /** `s.indexOf(p) === 0` is exactly the prefix test. */
  lemma IndexOfZeroIffPrefix(s: string, p: string)
    ensures IndexOf(s, p) == 0 <==> StartsWith(s, p)
  {
    if StartsWith(s, p) {
      assert OccursAt(s, p, 0);
    }
  }
}

=== FILE: requests.dfy ===
/** The HTTP requests and URLs the client builds: the bearer header, the
    generic request wrapper, the authorization redirect URL and the
    authorization-code exchange (src/index.js:38-77, 93-99, 212-245, 266-280).
    Query strings, form bodies and Base64 stay structured: they are the
    parameter objects handed to qs.stringify and the text handed to btoa. */
module Requests {
  import opened Js
  import opened Errors
  import opened Creds
  import opened Instance

  const FormType: string := "application/x-www-form-urlencoded"
  const JsonType: string := "application/json"

  /** An `Authorization` header value: `Bearer <token>`, or `Basic ` followed
      by the Base64 of `userPass`. */
  datatype AuthValue = Bearer(token: string) | Basic(userPass: string)

  /** The headers object; an absent member is not sent. */
  datatype Headers = Headers(
    accept: Option<string>,
    contentType: Option<string>,
    authorization: Option<AuthValue>)

  /** A URL: the address, then `?` and the encoded query when there is one. */
  datatype Url = Url(address: string, query: Option<Params>)

  /** A fetch call: the HTTP method (`verb`), URL, headers and body (null, or the encoding of a
      parameter object; `qs.stringify(null)` is the empty form). */
  datatype Request = Request(verb: string, url: Url, headers: Headers, body: Option<Params>)

  /** A response as the client sees it: `resp.ok` and the parsed JSON body. */
  datatype Response = Response(ok: bool, data: Params)

  /** getAuthorizationHeader (lines 93-99). */
  function AuthorizationHeader(creds: Credentials): (r: Option<AuthValue>)
    ensures r.None? <==> creds.token.None?
    ensures r.Some? ==> r.value.Bearer?
    ensures creds.token.Some? && creds.token.value.public.Some? ==>
      r == Some(Bearer(creds.token.value.public.value))
    ensures creds.token.Some? && creds.token.value.public.None? ==> r == Some(Bearer("undefined"))
  {
    match creds.token
    case None => None
    case Some(t) => Some(Bearer(Text(t.public)))
  }

  /** request (lines 212-245): resolves the URL against the API root, moves
      GET data into the query, sets the form content type for a body, and
      merges in the bearer header when a token is held. */
  function BuildRequest(s: Session, creds: Credentials, verb: string, url: string, data: Option<Params>): (r: Request)
    ensures r.verb == verb
    ensures r.url.address == if StartsWith(url, "http") then url else s.url + url
    ensures verb == "GET" ==> r.url.query == data && r.body.None?
    ensures verb != "GET" ==> r.url.query.None?
    ensures verb == "HEAD" ==> r.body.None?
    ensures verb != "GET" && verb != "HEAD" ==> r.body == Some(data.GetOr(map[]))
    ensures r.headers.accept == Some(JsonType)
    ensures r.headers.contentType.Some? <==> verb != "GET" && verb != "HEAD" && data.Some?
    ensures r.headers.contentType.Some? ==> r.headers.contentType == Some(FormType)
    ensures r.headers.authorization == AuthorizationHeader(creds)
  {
    IndexOfZeroIffPrefix(url, "http");
    var address := if IndexOf(url, "http") != 0 then s.url + url else url;
    var query := if verb == "GET" && data.Some? then data else None;
    var data' := if verb == "GET" && data.Some? then None else data;
    var contentType := if verb != "GET" && verb != "HEAD" && data'.Some? then Some(FormType) else None;
    var authorization := if creds.token.Some? then AuthorizationHeader(creds) else None;
    Request(
      verb,
      Url(address, query),
      Headers(Some(JsonType), contentType, authorization),
      if verb == "GET" || verb == "HEAD" then None else Some(data'.GetOr(map[])))
  }

  /** getRedirectURL (lines 38-55): the authorization endpoint with
      `response_type`, `client_id`, `redirect_uri`, and `scope` and `state`
      when truthy. A missing callback URL is a configuration error. */
  function RedirectUrl(s: Session, creds: Credentials, state: Option<string>): (r: Result<Url, AuthError>)
    ensures !Truthy(s.config.callbackURL) ==> r == Err(MissingConfig("callbackURL"))
    ensures Truthy(s.config.callbackURL) && creds.client.None? ==> r == Err(UndefinedProperty("id"))
    ensures Truthy(s.config.callbackURL) && creds.client.Some? ==> r.Ok?
    ensures r.Ok? ==> r.value.address == s.url + "/oauth2/authorize" && r.value.query.Some?
    ensures r.Ok? ==> var q := r.value.query.value;
      && Get(q, "redirect_uri") == s.config.callbackURL
      && Get(q, "client_id") == creds.client.value.id
      && ("response_type" in q <==> creds.grant.Some?)
      && (creds.grant.Some? ==> q["response_type"] == creds.grant.value.ResponseType())
      && ("scope" in q <==> Truthy(s.scope))
      && (Truthy(s.scope) ==> q["scope"] == s.scope.value)
      && ("state" in q <==> Truthy(state))
      && (Truthy(state) ==> q["state"] == state.value)
      && q.Keys <= {"response_type", "client_id", "redirect_uri", "scope", "state"}
  {
    if !Truthy(s.config.callbackURL) then Err(MissingConfig("callbackURL"))
    else if creds.client.None? then Err(UndefinedProperty("id"))
    else
      var args := Put(Put(Put(map[],
        "response_type", if creds.grant.Some? then Some(creds.grant.value.ResponseType()) else None),
        "client_id", creds.client.value.id),
        "redirect_uri", s.config.callbackURL);
      var args := if Truthy(s.scope) then args["scope" := s.scope.value] else args;
      var args := if Truthy(state) then args["state" := state.value] else args;
      Ok(Url(s.url + "/oauth2/authorize", Some(args)))
  }

  /** getAccessToken's request (lines 57-77). The body is encoded at line 70,
      before `client_id` is deleted at line 76, so `client_id` is sent in the
      body whether or not a Basic header is added; the Basic header is added
      exactly when the client object has a `secret` key. */
  function AccessTokenRequest(s: Session, creds: Credentials, code: string): (r: Result<Request, AuthError>)
    ensures r.Err? <==> creds.client.None?
    ensures r.Err? ==> r.error == UndefinedProperty("id")
    ensures r.Ok? ==> var q := r.value;
      && q.verb == "POST"
      && q.url == Url(s.url + "/oauth2/access_token", None)
      && q.headers.contentType == Some(FormType)
      && q.headers.accept.None?
      && q.body.Some?
      && Get(q.body.value, "grant_type") == Some("authorization_code")
      && Get(q.body.value, "code") == Some(code)
      && Get(q.body.value, "client_id") == creds.client.value.id
      && Get(q.body.value, "redirect_uri") == s.config.callbackURL
      && q.body.value.Keys <= {"grant_type", "client_id", "redirect_uri", "code"}
    ensures r.Ok? ==> (r.value.headers.authorization.Some? <==> creds.client.value.secret.SecretKey?)
    ensures r.Ok? && creds.client.value.secret.SecretKey? ==>
      r.value.headers.authorization == Some(Basic(Text(creds.client.value.id) + ":" + Text(creds.client.value.secret.value)))
  {
    match creds.client
    case None => Err(UndefinedProperty("id"))
    case Some(client) =>
      var args := Put(Put(map["grant_type" := "authorization_code"],
        "client_id", client.id),
        "redirect_uri", s.config.callbackURL)["code" := code];
      var body := Some(args);
      var authorization :=
        if client.secret.SecretKey? then Some(Basic(Text(client.id) + ":" + Text(client.secret.value)))
        else None;
      Ok(Request("POST", Url(s.url + "/oauth2/access_token", None),
        Headers(None, Some(FormType), authorization), body))
  }

  /** parseResponse (lines 266-280): a success body is returned; a failure
      becomes an error carrying the body's message, code and data
      (`new Error(undefined)` has the empty message). */
  function ParseResponse(resp: Response): (r: Result<Params, AuthError>)
    ensures r.Ok? <==> resp.ok
    ensures r.Ok? ==> r.value == resp.data
    ensures r.Err? ==>
      && r.error.HttpError?
      && r.error.code == Get(resp.data, "code")
      && r.error.data == Get(resp.data, "data")
      && r.error.message == Get(resp.data, "message").GetOr("")
  {
    if resp.ok then Ok(resp.data)
    else Err(HttpError(Get(resp.data, "message").GetOr(""), Get(resp.data, "code"), Get(resp.data, "data")))
  }
}

=== FILE: store.dfy ===
/** The durable key-value store (window.localStorage) and the helpers that
    keep the finalized credentials in it (src/index.js:175-198). */
module CredentialStore {
  import opened Js
  import opened Creds

  /** Each stored value is the credentials record whose JSON text sits under
      that key; other keys may hold anything and are never touched here. */
  type Store = map<string, Credentials>

  /** The snapshot saved just before redirecting to the provider. */
  const PendingKey: string := "requestTokenCredentials"

  /** The snapshot kept once a token is held. */
  const FinalizedKey: string := "tokenCredentials"

  /** localStorage.getItem(key) followed by JSON.parse; a missing key reads as null. */
  function Load(store: Store, key: string): (r: Option<Credentials>)
    ensures r.Some? <==> key in store
    ensures r.Some? ==> r.value == store[key]
  {
    if key in store then Some(store[key]) else None
  }

  /** saveCredentials (lines 175-177): stores the JSON of the live credentials. */
  function SaveCredentials(creds: Credentials, store: Store): (r: Store)
    ensures Load(r, FinalizedKey) == Some(Serialized(creds))
    ensures forall k :: k != FinalizedKey ==> Load(r, k) == Load(store, k)
  {
    store[FinalizedKey := Serialized(creds)]
  }

  /** hasCredentials (lines 184-190): a client id and a token value are both held. */
  predicate HasCredentials(creds: Credentials)
    ensures HasCredentials(creds) ==> creds.token.Some? && creds.token.value.public.Some? && creds.token.value.public.value != ""
    ensures HasCredentials(creds) ==> creds.client.Some? && creds.client.value.id.Some? && creds.client.value.id.value != ""
  {
    && creds.client.Some?
    && Truthy(creds.client.value.id)
    && creds.token.Some?
    && Truthy(creds.token.value.public)
  }

  /** removeCredentials (lines 179-182): forgets the token in memory and in the store. */
  function RemoveCredentials(creds: Credentials, store: Store): (r: (Credentials, Store))
    ensures !HasCredentials(r.0)
    ensures r.0.token.None?
    ensures r.0.grant == creds.grant && r.0.client == creds.client
    ensures Load(r.1, FinalizedKey) == None
    ensures forall k :: k != FinalizedKey ==> Load(r.1, k) == Load(store, k)
  {
    (creds.(token := None), store - {FinalizedKey})
  }

  /** restoreCredentials (lines 192-198): replaces the live credentials by the
      finalized snapshot when there is one. */
  function RestoreCredentials(creds: Credentials, store: Store): (r: Credentials)
    ensures FinalizedKey !in store ==> r == creds
    ensures FinalizedKey in store ==> r == store[FinalizedKey]
  {
    match Load(store, FinalizedKey)
    case Some(saved) => saved
    case None => creds
  }

  /** Saving and later restoring hands back the saved credentials (exactly,
      unless a member was undefined), whatever the live credentials are by then,
      and keeps an authorized session authorized. */
  lemma SaveThenRestore(creds: Credentials, later: Credentials, store: Store)
    ensures RestoreCredentials(later, SaveCredentials(creds, store)) == Serialized(creds)
    ensures !HasUndefinedSecret(creds) ==> RestoreCredentials(later, SaveCredentials(creds, store)) == creds
    ensures HasCredentials(creds) ==> HasCredentials(RestoreCredentials(later, SaveCredentials(creds, store)))
  {
    SerializedRoundTrip(creds);
  }

  /** After removing the credentials, restoring finds nothing and keeps the
      token-less live credentials. */
  lemma RemoveThenRestore(creds: Credentials, store: Store)
    ensures var (c, s) := RemoveCredentials(creds, store);
      RestoreCredentials(c, s) == c && !HasCredentials(RestoreCredentials(c, s))
  {
  }
}
